=== FILE: README.md ===
# Session lifecycle rules of StateService, in Dafny

StateService hands out session tokens. A client presents a pre-shared
creation key (the `x-auth-key` header) and a JSON payload. The service then
stores the payload in Redis under a session token, with a time-to-live, and
later reads it back by that token. This project models the rules in
`session.js` that decide this:

- `validateKey` checks the creation key against `config.xAuthKeys`.
- `setExpiryDate` picks the ttl: the record's own `ttlSec` when it is truthy,
  otherwise `config.defaultTtlSec`. It then stamps `Expires = now + ttlSec`.
- `create` gates on the key and copies the payload. It keeps the caller's
  `xSessionToken` or assigns a fresh UUID, stamps the expiry, and writes the
  record under its token with that ttl.
- `get` was meant as a sliding renewal. It reads the record, re-stamps its
  expiry and re-arms the store ttl.

The model is functional. A session record is an immutable JSON object
(`Json.Object`, a map from field names to JSON values). The store is an
immutable map from the token's string key to (record, expiry). The clock `now` (whole
seconds) and the fresh UUID are parameters. Each operation returns the store
it leaves behind together with a `Result` (`Session.Reply`).

Modules:

- `Wrappers` (wrappers.dfy): `Option` and `Result`.
- `Json` (json.dfy): JSON values, JavaScript truthiness (what `a || b` tests),
  `Number(...)`, and `String(...)` (`KeyOf`), which gives the Redis key a
  token value is stored under.
- `Cache` (cache.dfy): the TTL store. It follows the Redis wrapper in
  cache.js: GET, SET, EXPIRE, the wrapper's `set` (SET then EXPIRE) and DEL.
  An entry at or past its expiry reads as absent.
- `Session` (session.dfy): `ValidateKey`, `EffectiveTtl`, `SetExpiryDate`,
  `ChooseToken`, `Create`, the intended `Get`, and `GetAsWritten`.
- `SessionProperties` (session_props.dfy): lemmas that relate several calls.
  They cover create-then-read, the renewal window and sliding expiry over any
  number of reads.

In these places the model keeps the code's behaviour:

- The intended `get` re-arms the store expiry with EXPIRE only. It does not
  rewrite the stored value, so the stored record keeps its earlier `Expires`.
  Only the returned record carries the new one.
- The token and ttl fall back on JavaScript truthiness. So a `ttlSec` of `0`,
  or a token of `""`, counts as absent.
- A `ttlSec` that `Number()` turns into NaN gets past Redis SET but fails at
  EXPIRE. `create` then rejects with the Redis error, but the record stays
  stored with no expiry. Its `ttlSec` and `Expires` are serialised as `null`.
- Redis keys are strings. A record is stored under the string form of its
  token, so a token given as the number `123` is read back by the path `123`.
- The configuration key list is an ordered list searched with `===`, not a set.

## Model

| member | source | states |
|---|---|---|
| Session.FindKey | session.js:21 | the search succeeds exactly when the key is in the list, and then yields an entry strictly equal to the key |
| Session.ValidateKey | session.js:16-28 | resolves with true iff the key is present, non-empty and listed; a missing or empty key rejects with 401 "Missing x-auth-key header"; an unlisted key rejects with 401 "Invalid x-auth-key: " followed by the key |
| Session.EffectiveTtl | session.js:32 | the ttl is the record's `ttlSec` when that is a non-zero number, and the configured default when `ttlSec` is absent or falsy (so 0 falls back); NaN arises only from a non-numeric value |
| Session.SetExpiryDate | session.js:30-35 | exactly when the ttl is a number, the result carries that ttl in `ttlSec` and `now + ttl` in `Expires`, and every other field is unchanged |
| Session.ChooseToken | session.js:45 | the token is the caller's `xSessionToken` when truthy, otherwise the fresh UUID; hence it is non-empty whenever the UUID is |
| Session.Create | session.js:40-52 | succeeds iff the key is accepted and the ttl is a number. A refused key rejects with 401 and leaves the store untouched. On success the record carries the chosen token, the ttl and `now + ttl`, keeps every other input field as given, and is stored under the token's string key expiring at `now + ttl`, with no other key changed. A NaN ttl rejects with the Redis error and leaves the record stored with no expiry |
| Session.Get | session.js:53-63 | a missing or expired token rejects with 401 and changes nothing; a live one returns the stored record with `ttlSec` re-derived and `Expires = now + ttl`, other fields unchanged, and re-arms that key to expire at `now + ttl` without rewriting the stored value, no other key changed |
| Json.Truthy | session.js:32 | a value is truthy exactly when it is not one of the falsy values `null`, `false`, `0` and `""` (a missing field is tested separately), which decides both `||` fallbacks, at session.js:32 and :45 |
| Json.ToNumber | session.js:32 | `Number()` of a whole number is itself, of `true`/`false` is 1/0, of `null` is 0, of a digit-only string is its decimal value, and of any other string, array or object is NaN |
| Json.KeyOf | cache.js:45-53 | the Redis key of a token value: a string is its own key; a whole number becomes its decimal digits without leading zeros, after a `-` when negative; a boolean becomes "true" or "false"; an object becomes "[object Object]" |
| Json.NatToDecimal | cache.js:49 | the decimal form of a whole number is a non-empty digit string whose value is the number, with no leading zero unless it is "0" |
| Json.KeyOfNumberRoundTrip | cache.js:49 | a whole number written out as a key and read back with `Number()` is the number itself |
| Session.GetAsWritten | session.js:55-58 | every call rejects with a script error and leaves the store unchanged |
| Cache.Get | cache.js:33-44 | reads a value iff the key is present and not expired; an unknown key reads as null |
| Cache.Set | cache.js:49 | after SET the key reads back the value at every time, and other keys keep their entries |
| Cache.Expire | cache.js:26-28 | a live key keeps its value and is re-armed to `now + ttl`; a key that is not live is left alone; other keys keep their entries |
| Cache.SetWithTtl | cache.js:45-57 | the key holds the value expiring at `now + ttl`; other keys keep their entries |
| Cache.Del | cache.js:58-69 | the key is removed, the reported flag is true iff the key was live, and other keys keep their entries |
| Cache.SetThenGet | test/cache.js:9-110 | a value written with a ttl reads back unchanged before `now + ttl` and as null from then on |
| Cache.OtherKeysUnaffected | test/cache.js:36-58 | writing, re-arming or deleting one key does not change what any other key reads |
| Cache.DelThenGet | test/cache.js:112-143 | after DEL the key reads as null |
| Cache.ExpireWindow | cache.js:26-28 | after EXPIRE a live key reads its old value for exactly ttl more seconds |
| SessionProperties.RestampMovesOnlyExpiry | session.js:30-35 | re-stamping a stamped record with non-zero ttl keeps its ttl and changes only `Expires` |
| SessionProperties.CreateThenGet | session.js:40-63 | after a successful create, a read at time t succeeds iff t is before `now + ttl`. It then returns the input payload with the token, the ttl and `Expires = t + ttl`. Otherwise it rejects with 401 |
| SessionProperties.NumericTokenReadsByItsString | session.js:45-47 | a session created with a non-zero whole number as its token reads back through the decimal string of that number that a request path supplies |
| SessionProperties.RenewalWindow | session.js:53-63 | after a successful read at `now`, a read at t succeeds iff t is before `now + ttl`, and returns the same record with only `Expires` moved to `t + ttl` |
| SessionProperties.PacedReadsKeepAlive | session.js:55-61 | reads of a live session that come less than one ttl apart all succeed, each stamping an expiry one ttl after its own time |
| SessionProperties.CreateThenPacedReads | session.js:40-61 | a created session survives any sequence of reads spaced less than its ttl apart |
| SessionProperties.GetAsWrittenFailsOnLiveSession | session.js:57-58 | on a session just created with a positive ttl, the as-written `get` fails while the intended one succeeds |

## Findings

| source | as written | input that shows it | evidently intended | confidence | as-written member | corrected member |
|---|---|---|---|---|---|---|
| session.js:57-58 | `get` calls `setExpiry(result)` and reads `xSession.ttlSec`. Neither name is defined in session.js, so every call throws a ReferenceError. There is also no branch for a missing record | any token, including one just returned by `create` with a positive ttl | apply `setExpiryDate` to the fetched record, re-arm the key with its `ttlSec`, return it, and reject a missing or expired token with 401 | high (not executed) | SessionProperties.GetAsWrittenFailsOnLiveSession | Session.Get |

## Left out

- `validate`, `update`, `patch` and `del` of the session manager: app.js calls them, but session.js does not define them, and its `del` is commented out. They are not invented here. The store-level DEL is modelled as `Cache.Del`.
- app.js: HTTP routing, CORS, gzip, the echo endpoint, request-body parsing, the mapping of rejections to HTTP status codes, and server start. This is I/O glue.
- Redis client construction and connection in cache.js, and the promise and error logging. The store is the abstract map of `Cache`.
- JSON stringify/parse round trips in the cache wrapper and in `create`'s deep copy: values are immutable, so the copy is the value itself.
- Asynchrony and promise chaining: each operation is a pure function returning its outcome. Each operation also happens at a single instant `now`. So the race in which a key expires between `get`'s GET and its EXPIRE is not shown: in the source that `get` still succeeds, because EXPIRE on a missing key does nothing.
- UUID generation and uniqueness: the fresh UUID is a parameter, and the code never checks for collisions.
- Session.Get: the model re-arms the key it looked up. The source re-arms the key of the record's own `xSessionToken`. These differ only for a record that `Create` did not write (`Create` ensures the stored record's token field converts to its key).
- Json.Value: numbers are whole and unbounded. A fractional `ttlSec`, which EXPIRE rejects like NaN, cannot be expressed. A ttl beyond the range of a JavaScript `Date` (over 8.64e12 seconds) is accepted: the model stamps `Expires = now + ttl`, where the source stamps an Invalid Date that serialises as null. A whole-number token of 10^21 or more is keyed by its full digits, where `String()` writes exponent form.
- Json.KeyOf: an array token is converted as `String()` would convert it. How the Redis client passes array arguments is not part of this model.
- Json.ToNumber: `Number()` is modelled for whole numbers, booleans, `null` and digit-only strings. Fractions, signs, whitespace, exponents, hex strings and arrays count as NaN.
- JavaScript `Date`: `Expires` is a whole number of seconds, not an ISO date string.
- Store failures other than a rejected EXPIRE (connection loss and the like), because the abstract store cannot fail otherwise.
- Logging in the logger and in both `handleError` functions.

=== FILE: cache.dfy ===
/** The TTL key-value store the session rules run against: the contract of the
    Redis wrapper in cache.js (GET, SET followed by EXPIRE, EXPIRE, DEL), with
    the clock passed in as whole seconds. An entry at or past its expiry reads
    as absent even while it is still physically held. */
module Cache {
  import opened Wrappers

  /** A stored value and its absolute expiry; `None` means the key never
      expires (a plain SET clears any expiry). */
  datatype Entry<V> = Entry(value: V, expiresAt: Option<int>)

  type Store<K(==, !new), V> = map<K, Entry<V>>

  /** Every key other than `k` is held exactly as before. */
  ghost predicate Untouched<K(!new), V>(s: Store<K, V>, r: Store<K, V>, k: K) {
    forall k' :: k' != k ==> (k' in r <==> k' in s) && (k' in s ==> r[k'] == s[k'])
  }

  /** The key holds a value that has not yet expired at time `now`. */
  predicate Live<K(==, !new), V>(s: Store<K, V>, k: K, now: int) {
    k in s && (s[k].expiresAt.None? || now < s[k].expiresAt.value)
  }

  /** GET: the stored value of a live key; an unknown or expired key reads as null. */
  function Get<K(==, !new), V>(s: Store<K, V>, k: K, now: int): (r: Option<V>)
    ensures r.Some? <==> Live(s, k, now)
    ensures k !in s ==> r == None
    ensures r.Some? ==> r.value == s[k].value
  {
    if Live(s, k, now) then Some(s[k].value) else None
  }

  /** SET: stores `v` under `k`, replacing any previous entry and its expiry. */
  function Set<K(==, !new), V>(s: Store<K, V>, k: K, v: V): (r: Store<K, V>)
    ensures forall now :: Get(r, k, now) == Some(v)
    ensures Untouched(s, r, k)
  {
    s[k := Entry(v, None)]
  }

  /** EXPIRE: arms a live key to expire `ttlSec` seconds after `now`, keeping
      its value; a key that is not live is left as it is. A ttl of zero or
      less makes the key read as absent at once, as Redis deletes it. */
  function Expire<K(==, !new), V>(s: Store<K, V>, k: K, ttlSec: int, now: int): (r: Store<K, V>)
    ensures Live(s, k, now) ==> k in r && r[k] == Entry(s[k].value, Some(now + ttlSec))
    ensures !Live(s, k, now) ==> r == s
    ensures Untouched(s, r, k)
  {
    if Live(s, k, now) then s[k := Entry(s[k].value, Some(now + ttlSec))] else s
  }

  /** The wrapper's `set(key, value, ttlSec)`: SET then EXPIRE. */
  function SetWithTtl<K(==, !new), V>(s: Store<K, V>, k: K, v: V, ttlSec: int, now: int): (r: Store<K, V>)
    ensures k in r && r[k] == Entry(v, Some(now + ttlSec))
    ensures Untouched(s, r, k)
  {
    Expire(Set(s, k, v), k, ttlSec, now)
  }

  /** DEL: removes `k` and reports whether a live key was there. */
  function Del<K(==, !new), V>(s: Store<K, V>, k: K, now: int): (r: (Store<K, V>, bool))
    ensures r.1 <==> Live(s, k, now)
    ensures k !in r.0
    ensures Untouched(s, r.0, k)
  {
    (map k' | k' in s && k' != k :: s[k'], Live(s, k, now))
  }

  /** A value written with a ttl reads back unchanged until the ttl runs out,
      and as null from then on. */
  lemma SetThenGet<K(!new), V>(s: Store<K, V>, k: K, v: V, ttlSec: int, now: int, t: int)
    ensures Get(SetWithTtl(s, k, v, ttlSec, now), k, t) == (if t < now + ttlSec then Some(v) else None)
  {
  }

  /** Writing, re-arming or deleting one key leaves every other key reading as before. */
  lemma OtherKeysUnaffected<K(!new), V>(s: Store<K, V>, k: K, k': K, v: V, ttlSec: int, now: int, t: int)
    requires k' != k
    ensures Get(SetWithTtl(s, k, v, ttlSec, now), k', t) == Get(s, k', t)
    ensures Get(Expire(s, k, ttlSec, now), k', t) == Get(s, k', t)
    ensures Get(Del(s, k, now).0, k', t) == Get(s, k', t)
  {
  }

  /** After DEL the key reads as null at every time. */
  lemma DelThenGet<K(!new), V>(s: Store<K, V>, k: K, now: int, t: int)
    ensures Get(Del(s, k, now).0, k, t) == None
  {
  }

  /** EXPIRE on a live key keeps its value readable for exactly `ttlSec` more seconds. */
  lemma ExpireWindow<K(!new), V>(s: Store<K, V>, k: K, ttlSec: int, now: int, t: int)
    requires Live(s, k, now)
    ensures Get(Expire(s, k, ttlSec, now), k, t) == (if t < now + ttlSec then Some(s[k].value) else None)
  {
  }
}

=== FILE: json.dfy ===
/** The JSON values a session record is made of, and the two pieces of
    JavaScript semantics the session rules depend on: truthiness (used by
    `a || b`) and the `Number(...)` conversion. Numbers are whole numbers. */
module Json {
  import opened Wrappers

  datatype Value =
    | Null
    | Bool(b: bool)
    | Num(n: int)
    | Str(s: string)
    | Arr(items: seq<Value>)
    | Obj(fields: map<string, Value>)

  /** A parsed JSON object: the shape of a request body and of a session record. */
  type Object = map<string, Value>

  /** JavaScript truthiness: `null`, `false`, `0` and `""` are falsy; arrays and
      objects are truthy even when empty. A missing field (`undefined`) is
      falsy too; callers check membership before asking. */
  predicate Truthy(v: Value)
    ensures Truthy(v) <==> v !in {Null, Bool(false), Num(0), Str("")}
  {
    match v
    case Null => false
    case Bool(b) => b
    case Num(n) => n != 0
    case Str(s) => s != ""
    case Arr(_) => true
    case Obj(_) => true
  }

  predicate IsDigit(c: char) {
    '0' <= c <= '9'
  }

  predicate AllDigits(s: string) {
    forall i :: 0 <= i < |s| ==> IsDigit(s[i])
  }

  /** Value of a string made only of decimal digits. */
  function DigitsValue(s: string): (r: nat)
    requires AllDigits(s)
    ensures s == "" ==> r == 0
  {
    if s == "" then 0
    else
      assert IsDigit(s[|s| - 1]);
      DigitsValue(s[..|s| - 1]) * 10 + (s[|s| - 1] as int - '0' as int)
  }

  /** JavaScript `Number(v)`; `None` stands for NaN. Whole numbers, booleans,
      `null` and digit-only strings convert; every other value is NaN here. */
  function ToNumber(v: Value): (r: Option<int>)
    ensures v.Num? ==> r == Some(v.n)
    ensures v.Bool? ==> r == Some(if v.b then 1 else 0)
    ensures v.Null? ==> r == Some(0)
    ensures v.Str? && AllDigits(v.s) ==> r == Some(DigitsValue(v.s))
    ensures v.Str? && !AllDigits(v.s) ==> r == None
    ensures v.Arr? || v.Obj? ==> r == None
  {
    match v
    case Null => Some(0)
    case Bool(b) => Some(if b then 1 else 0)
    case Num(n) => Some(n)
    case Str(s) =>
      if AllDigits(s) then Some(DigitsValue(s)) else None
    case Arr(_) => None
    case Obj(_) => None
  }

  /** The decimal digits of `n`, most significant first, with no leading zero. */
  function NatToDecimal(n: nat): (r: string)
    ensures |r| > 0
    ensures AllDigits(r) && DigitsValue(r) == n
    ensures r[0] != '0' || r == "0"
  {
    var d := ['0' + (n % 10) as char];
    if n < 10 then d
    else
      var prefix := NatToDecimal(n / 10);
      assert (prefix + d)[..|prefix + d| - 1] == prefix;
      prefix + d
  }

  /** JavaScript `String(v)` for a whole number: decimal, with a leading `-`
      when negative. */
  function IntToDecimal(n: int): (r: string)
    ensures n >= 0 ==> AllDigits(r) && DigitsValue(r) == n
    ensures n >= 0 ==> |r| > 0 && (r[0] != '0' || r == "0")
    ensures n < 0 ==> |r| > 1 && r[0] == '-' && AllDigits(r[1..]) && DigitsValue(r[1..]) == -n && r[1] != '0'
  {
    if n >= 0 then NatToDecimal(n)
    else
      var digits := NatToDecimal(-n);
      assert ("-" + digits)[1..] == digits;
      "-" + digits
  }

  /** The string a value turns into where JavaScript needs a string, as the
      Redis client does with a key: `String(v)`. Inside an array, `null`
      becomes the empty string and items are joined with commas. */
  function KeyOf(v: Value): (r: string)
    ensures v.Str? ==> r == v.s
    ensures v.Num? && v.n >= 0 ==> AllDigits(r) && DigitsValue(r) == v.n && |r| > 0 && (r[0] != '0' || r == "0")
    ensures v.Num? && v.n < 0 ==>
              |r| > 1 && r[0] == '-' && AllDigits(r[1..]) && DigitsValue(r[1..]) == -v.n && r[1] != '0'
    ensures v.Bool? ==> r == (if v.b then "true" else "false")
    ensures v.Obj? ==> r == "[object Object]"
  {
    match v
    case Null => "null"
    case Bool(b) => if b then "true" else "false"
    case Num(n) => IntToDecimal(n)
    case Str(s) => s
    case Arr(items) => JoinItems(items)
    case Obj(_) => "[object Object]"
  }

  /** `items.join(",")` with each item converted as `String` does inside an array. */
  function JoinItems(items: seq<Value>): (r: string)
    decreases items, 0
  {
    if |items| == 0 then ""
    else
      var first := if items[0].Null? then "" else KeyOf(items[0]);
      if |items| == 1 then first else first + "," + JoinItems(items[1..])
  }

  /** A whole number written out as a key and read back with `Number()` is
      the number itself. */
  lemma KeyOfNumberRoundTrip(n: nat)
    ensures ToNumber(Str(KeyOf(Num(n)))) == Some(n)
  {
  }

  /** `a` and `b` agree on key `k`: both lack it, or both map it to the same value. */
  predicate AgreeOn(a: Object, b: Object, k: string) {
    (k in a <==> k in b) && (k in a ==> a[k] == b[k])
  }

  /** `a` and `b` agree on every key outside `reserved`. */
  ghost predicate SameExcept(a: Object, b: Object, reserved: set<string>) {
    forall k :: k !in reserved ==> AgreeOn(a, b, k)
  }
}

=== FILE: session.dfy ===
/** The session rules of session.js: checking the creation key, stamping the
    ttl and expiry onto a record, creating a session, and reading one back with
    a sliding renewal of its expiry. The store, the clock (`now`, whole seconds)
    and the freshly generated UUID are parameters; every operation returns the
    store it leaves behind together with its outcome. */
module Session {
  import opened Wrappers
  import opened Json
  import Cache

  /** Field names the rules read and write on a session record. */
  const TokenField: string := "xSessionToken"
  const TtlField: string := "ttlSec"
  const ExpiresField: string := "Expires"
  const Reserved: set<string> := {TokenField, TtlField, ExpiresField}

  /** The `code` of every rejection session.js raises itself. */
  const Unauthorized: int := 401

  const MissingKeyMsg: string := "Missing x-auth-key header"
  const InvalidKeyPrefix: string := "Invalid x-auth-key: "
  /** Message of the rejection for a missing or expired session token. The
      `get` in session.js has no branch for this case, so the text is this
      model's own choice for the intended behaviour. */
  const InvalidTokenMsg: string := "Invalid x-session-token"
  /** Redis's reply to an EXPIRE whose ttl is not an integer. */
  const ExpireRejectedMsg: string := "ERR value is not an integer or out of range"
  /** The ReferenceError the as-written `get` throws. */
  const UndefinedSetExpiryMsg: string := "setExpiry is not defined"

  /** The configuration the rules read: the accepted creation keys and the
      ttl used when a record carries none. */
  datatype Config = Config(xAuthKeys: seq<string>, defaultTtlSec: int)

  datatype Failure =
    | Rejected(code: int, msg: string)  // a `{ code, msg }` object rejected by session.js
    | StoreError(msg: string)           // an error reported by Redis through the cache wrapper
    | ScriptError(msg: string)          // a JavaScript exception thrown by the code itself

  /** Session records keyed by the Redis key of their token: the string the
      Redis client makes of the token value (`Json.KeyOf`), so a token given
      as the number 123 and one given as the string "123" name the same key. */
  type SessionStore = Cache.Store<string, Object>

  /** The store an operation leaves behind and what the operation resolved or rejected with. */
  datatype Reply<T> = Reply(store: SessionStore, result: Result<T, Failure>)

  /** The creation key the rules accept: present, non-empty and listed in the configuration. */
  predicate KeyAccepted(cfg: Config, xAuthKey: Option<string>) {
    xAuthKey.Some? && xAuthKey.value != "" && xAuthKey.value in cfg.xAuthKeys
  }

  /** `_.find(keys, k => k === key)`: the first entry strictly equal to `key`. */
  function FindKey(keys: seq<string>, key: string): (r: Option<string>)
    ensures r.Some? <==> key in keys
    ensures r.Some? ==> r.value == key
  {
    if |keys| == 0 then None
    else if keys[0] == key then Some(keys[0])
    else FindKey(keys[1..], key)
  }

  /** `validateKey`: resolves with `true` exactly for an accepted creation key;
      otherwise rejects with code 401, naming the missing header or echoing the
      refused key. */
  function ValidateKey(cfg: Config, xAuthKey: Option<string>): (r: Result<bool, Failure>)
    ensures r.Ok? <==> KeyAccepted(cfg, xAuthKey)
    ensures r.Ok? ==> r.value
    ensures xAuthKey.None? || xAuthKey.value == "" ==> r == Err(Rejected(Unauthorized, MissingKeyMsg))
    ensures xAuthKey.Some? && xAuthKey.value != "" && !KeyAccepted(cfg, xAuthKey) ==>
              r == Err(Rejected(Unauthorized, InvalidKeyPrefix + xAuthKey.value))
  {
    if xAuthKey.None? || |xAuthKey.value| <= 0 then
      Err(Rejected(Unauthorized, MissingKeyMsg))
    else
      var found := FindKey(cfg.xAuthKeys, xAuthKey.value);
      if found.Some? && Truthy(Str(found.value)) then Ok(true)
      else Err(Rejected(Unauthorized, InvalidKeyPrefix + xAuthKey.value))
  }

  /** `Number(session.ttlSec || config.defaultTtlSec)`: the record's own ttl when
      it is truthy, the configured default otherwise (so a ttl of 0 falls back);
      `None` is NaN, which only a non-numeric ttl value produces. */
  function EffectiveTtl(cfg: Config, session: Object): (r: Option<int>)
    ensures TtlField !in session || !Truthy(session[TtlField]) ==> r == Some(cfg.defaultTtlSec)
    ensures TtlField in session && session[TtlField].Num? && session[TtlField].n != 0 ==>
              r == Some(session[TtlField].n)
    ensures r.None? ==> TtlField in session && !session[TtlField].Num?
  {
    if TtlField in session && Truthy(session[TtlField]) then ToNumber(session[TtlField])
    else Some(cfg.defaultTtlSec)
  }

  /** `setExpiryDate`: writes the effective ttl into `ttlSec` and `now + ttlSec`
      into `Expires`, leaving every other field as it was. `None` when the ttl
      is NaN (the record would then carry NaN and an Invalid Date). */
  function SetExpiryDate(cfg: Config, session: Object, now: int): (r: Option<Object>)
    ensures r.Some? <==> EffectiveTtl(cfg, session).Some?
    ensures r.Some? ==>
              var ttl := EffectiveTtl(cfg, session).value;
              && TtlField in r.value && r.value[TtlField] == Num(ttl)
              && ExpiresField in r.value && r.value[ExpiresField] == Num(now + ttl)
    ensures r.Some? ==> SameExcept(r.value, session, {TtlField, ExpiresField})
  {
    match EffectiveTtl(cfg, session)
    case None => None
    case Some(ttl) => Some(session[TtlField := Num(ttl)][ExpiresField := Num(now + ttl)])
  }

  /** `session.xSessionToken || uuid.v4()`: the caller's token when truthy, the
      fresh UUID otherwise. */
  function ChooseToken(input: Object, uuid: string): (t: Value)
    ensures TokenField in input && Truthy(input[TokenField]) ==> t == input[TokenField]
    ensures !(TokenField in input && Truthy(input[TokenField])) ==> t == Str(uuid)
    ensures uuid != "" ==> Truthy(t)
  {
    if TokenField in input && Truthy(input[TokenField]) then input[TokenField] else Str(uuid)
  }

  /** The JSON a record with a NaN ttl serialises to: NaN and an Invalid Date
      are both written as null. */
  function NaNStamped(session: Object): (r: Object)
    ensures TtlField in r && r[TtlField] == Null && ExpiresField in r && r[ExpiresField] == Null
    ensures SameExcept(r, session, {TtlField, ExpiresField})
  {
    session[TtlField := Null][ExpiresField := Null]
  }

  /** `create`: gates on the creation key, then stores a copy of the input
      carrying its token, ttl and expiry under that token for ttl seconds and
      resolves with it; the Redis key is the string form of the token. A
      rejected key writes nothing. A NaN ttl gets past SET
      but fails at EXPIRE: the record stays stored with no expiry and the
      operation rejects with the Redis error. Values are immutable here, so the
      deep copy of the input is the input itself and the caller's object can
      never be changed. */
  function Create(cfg: Config, store: SessionStore, xAuthKey: Option<string>, input: Object,
                  uuid: string, now: int): (r: Reply<Object>)
    ensures r.result.Ok? <==> KeyAccepted(cfg, xAuthKey) && EffectiveTtl(cfg, input).Some?
    ensures !KeyAccepted(cfg, xAuthKey) ==>
              r.store == store && r.result.Err? && r.result.error.Rejected? &&
              r.result.error.code == Unauthorized
    ensures r.result.Ok? ==>
              var s := r.result.value;
              var token := ChooseToken(input, uuid);
              var key := KeyOf(token);
              var ttl := EffectiveTtl(cfg, input).value;
              && TokenField in s && s[TokenField] == token
              && TtlField in s && s[TtlField] == Num(ttl)
              && ExpiresField in s && s[ExpiresField] == Num(now + ttl)
              && SameExcept(s, input, Reserved)
              && key in r.store && r.store[key] == Cache.Entry(s, Some(now + ttl))
              && Cache.Untouched(store, r.store, key)
    ensures KeyAccepted(cfg, xAuthKey) && EffectiveTtl(cfg, input).None? ==>
              var token := ChooseToken(input, uuid);
              var key := KeyOf(token);
              && r.result == Err(StoreError(ExpireRejectedMsg))
              && key in r.store && r.store[key].expiresAt == None
              && TokenField in r.store[key].value && r.store[key].value[TokenField] == token
              && SameExcept(r.store[key].value, input, Reserved)
              && Cache.Untouched(store, r.store, key)
  {
    match ValidateKey(cfg, xAuthKey)
    case Err(e) => Reply(store, Err(e))
    case Ok(_) =>
      var copy := input;
      var token := ChooseToken(copy, uuid);
      var session := copy[TokenField := token];
      match SetExpiryDate(cfg, session, now)
      case Some(stamped) =>
        var ttl := EffectiveTtl(cfg, session).value;
        Reply(Cache.SetWithTtl(store, KeyOf(token), stamped, ttl, now), Ok(stamped))
      case None =>
        Reply(Cache.Set(store, KeyOf(token), NaNStamped(session)), Err(StoreError(ExpireRejectedMsg)))
  }

  /** `get` as its evident intent reads: a missing or expired token rejects with
      code 401; otherwise the fetched record is passed through `setExpiryDate`,
      the token's store expiry is re-armed to the record's ttl, and the
      re-stamped record is returned. EXPIRE does not rewrite the value, so the
      stored record keeps its earlier `Expires`. The source re-arms the key held
      in the record's own `xSessionToken`; this model re-arms the key it looked
      up, which is the same key for every record `Create` writes. The token
      arrives as the path segment of the request, a string. */
  function Get(cfg: Config, store: SessionStore, token: string, now: int): (r: Reply<Object>)
    ensures !Cache.Live(store, token, now) ==>
              r == Reply(store, Err(Rejected(Unauthorized, InvalidTokenMsg)))
    ensures Cache.Live(store, token, now) ==>
              (r.result.Ok? <==> EffectiveTtl(cfg, store[token].value).Some?)
    ensures r.result.Err? ==> r.store == store
    ensures r.result.Ok? ==>
              var stored := store[token].value;
              var ttl := EffectiveTtl(cfg, stored).value;
              var s := r.result.value;
              && SameExcept(s, stored, {TtlField, ExpiresField})
              && TtlField in s && s[TtlField] == Num(ttl)
              && ExpiresField in s && s[ExpiresField] == Num(now + ttl)
              && token in r.store && r.store[token] == Cache.Entry(stored, Some(now + ttl))
              && Cache.Untouched(store, r.store, token)
  {
    match Cache.Get(store, token, now)
    case None => Reply(store, Err(Rejected(Unauthorized, InvalidTokenMsg)))
    case Some(record) =>
      match SetExpiryDate(cfg, record, now)
      case None => Reply(store, Err(StoreError(ExpireRejectedMsg)))
      case Some(session) =>
        var ttl := EffectiveTtl(cfg, record).value;
        Reply(Cache.Expire(store, token, ttl, now), Ok(session))
  }

  /** `get` as written: the callback after the store read calls `setExpiry`,
      which session.js never defines, so every call rejects with a
      ReferenceError and nothing is re-armed. */
  function GetAsWritten(store: SessionStore, token: string, now: int): (r: Reply<Object>)
    ensures r.store == store && r.result.Err? && r.result.error.ScriptError?
  {
    Reply(store, Err(ScriptError(UndefinedSetExpiryMsg)))
  }
}

=== FILE: session_props.dfy ===
/** Properties that relate several calls of the session rules: a created
    session reads back until its ttl runs out, every read renews it for one
    more full ttl, reads spaced closer than the ttl keep it alive for ever, and
    the `get` that session.js actually contains never succeeds. */
module SessionProperties {
  import opened Wrappers
  import opened Json
  import Cache
  import opened Session

  /** Stamping a stamped record again moves only its `Expires`, provided its
      ttl is not 0 (a ttl of 0 is falsy and would fall back to the default). */
  lemma RestampMovesOnlyExpiry(cfg: Config, session: Object, now: int, t: int)
    requires SetExpiryDate(cfg, session, now).Some?
    requires EffectiveTtl(cfg, session).value != 0
    ensures var first := SetExpiryDate(cfg, session, now).value;
            var ttl := EffectiveTtl(cfg, session).value;
            && EffectiveTtl(cfg, first) == Some(ttl)
            && SetExpiryDate(cfg, first, t) == Some(first[ExpiresField := Num(t + ttl)])
  {
    var first := SetExpiryDate(cfg, session, now).value;
    var ttl := EffectiveTtl(cfg, session).value;
    assert first[TtlField] == Num(ttl);
    assert EffectiveTtl(cfg, first) == Some(ttl);
    assert first[TtlField := Num(ttl)] == first;
  }

  /** After a successful create, reading the token at any later time `t`
      succeeds exactly while `t` is before the expiry, and then returns the
      caller's payload with the token, the ttl and an expiry of `t + ttl`;
      from the expiry on the read rejects with code 401. */
  lemma CreateThenGet(cfg: Config, store: SessionStore, xAuthKey: Option<string>,
                      input: Object, uuid: string, now: int, t: int)
    requires Create(cfg, store, xAuthKey, input, uuid, now).result.Ok?
    requires now <= t
    ensures var c := Create(cfg, store, xAuthKey, input, uuid, now);
            var token := ChooseToken(input, uuid);
            var ttl := EffectiveTtl(cfg, input).value;
            var g := Get(cfg, c.store, KeyOf(token), t);
            && (g.result.Ok? <==> t < now + ttl)
            && (g.result.Err? ==> g.result.error == Rejected(Unauthorized, InvalidTokenMsg))
            && (g.result.Ok? ==>
                  && SameExcept(g.result.value, input, Reserved)
                  && TokenField in g.result.value && g.result.value[TokenField] == token
                  && TtlField in g.result.value && g.result.value[TtlField] == Num(ttl)
                  && ExpiresField in g.result.value && g.result.value[ExpiresField] == Num(t + ttl))
  {
  }

  /** A caller token given as a whole number names the same Redis key as its
      decimal string: a session created with `"xSessionToken": n` reads back
      through the request path that spells `n` in decimal without leading
      zeros. A token of 0 is falsy and is replaced by the fresh UUID. */
  lemma NumericTokenReadsByItsString(cfg: Config, store: SessionStore, xAuthKey: Option<string>,
                                     input: Object, uuid: string, now: int, n: nat)
    requires Create(cfg, store, xAuthKey, input, uuid, now).result.Ok?
    requires TokenField in input && input[TokenField] == Num(n) && n != 0
    requires EffectiveTtl(cfg, input).value > 0
    ensures Get(cfg, Create(cfg, store, xAuthKey, input, uuid, now).store, NatToDecimal(n), now).result.Ok?
  {
    CreateThenGet(cfg, store, xAuthKey, input, uuid, now, now);
  }

  /** A successful read renews the session: a second read at `t` succeeds
      exactly while `t` is less than one full ttl after the first, and returns
      the same record with only its expiry moved to `t + ttl`. */
  lemma RenewalWindow(cfg: Config, store: SessionStore, token: string, now: int, t: int)
    requires Get(cfg, store, token, now).result.Ok?
    requires now <= t
    ensures var g1 := Get(cfg, store, token, now);
            var ttl := EffectiveTtl(cfg, store[token].value).value;
            var g2 := Get(cfg, g1.store, token, t);
            && (g2.result.Ok? <==> t < now + ttl)
            && (g2.result.Err? ==> g2.result.error == Rejected(Unauthorized, InvalidTokenMsg))
            && (g2.result.Ok? ==>
                  && SameExcept(g2.result.value, g1.result.value, {ExpiresField})
                  && ExpiresField in g2.result.value && g2.result.value[ExpiresField] == Num(t + ttl))
  {
  }

  /** Each access time is at or after the previous one (`last` for the first)
      and strictly less than one ttl after it. */
  predicate Paced(last: int, ttl: int, times: seq<int>)
    decreases |times|
  {
    |times| == 0 || (last <= times[0] < last + ttl && Paced(times[0], ttl, times[1..]))
  }

  /** The outcomes of reading one token at each of `times` in turn, and the
      store left after the last read. */
  datatype Trace = Trace(store: SessionStore, results: seq<Result<Object, Failure>>)

  /** Reads `token` at each of `times` in turn, threading the store through. */
  function Accesses(cfg: Config, store: SessionStore, token: string, times: seq<int>): (r: Trace)
    ensures |r.results| == |times|
    ensures |times| > 0 ==> r.results[0] == Get(cfg, store, token, times[0]).result
  {
    if |times| == 0 then Trace(store, [])
    else
      var g := Get(cfg, store, token, times[0]);
      var rest := Accesses(cfg, g.store, token, times[1..]);
      Trace(rest.store, [g.result] + rest.results)
  }

  /** Sliding expiry: while the reads of a live session come less than one ttl
      apart, every one of them succeeds and stamps an expiry one ttl after its
      own time, however long the sequence runs past the original expiry. */
  lemma {:induction false} PacedReadsKeepAlive(cfg: Config, store: SessionStore, token: string,
                                               last: int, ttl: int, times: seq<int>)
    requires token in store && store[token].expiresAt == Some(last + ttl)
    requires EffectiveTtl(cfg, store[token].value) == Some(ttl)
    requires Paced(last, ttl, times)
    ensures var tr := Accesses(cfg, store, token, times);
            forall i :: 0 <= i < |tr.results| ==>
              && tr.results[i].Ok?
              && ExpiresField in tr.results[i].value
              && tr.results[i].value[ExpiresField] == Num(times[i] + ttl)
    decreases |times|
  {
    if |times| > 0 {
      var g := Get(cfg, store, token, times[0]);
      assert Cache.Live(store, token, times[0]);
      assert g.store[token] == Cache.Entry(store[token].value, Some(times[0] + ttl));
      PacedReadsKeepAlive(cfg, g.store, token, times[0], ttl, times[1..]);
      var tr := Accesses(cfg, store, token, times);
      var rest := Accesses(cfg, g.store, token, times[1..]);
      assert tr.results == [g.result] + rest.results;
      forall i | 0 <= i < |tr.results|
        ensures tr.results[i].Ok?
        ensures ExpiresField in tr.results[i].value
        ensures tr.results[i].value[ExpiresField] == Num(times[i] + ttl)
      {
        if i > 0 {
          assert tr.results[i] == rest.results[i - 1];
          assert times[i] == times[1..][i - 1];
        }
      }
    }
  }

  /** A created session stays readable through any sequence of reads spaced
      less than its ttl apart, starting from the creation time. */
  lemma CreateThenPacedReads(cfg: Config, store: SessionStore, xAuthKey: Option<string>,
                             input: Object, uuid: string, now: int, times: seq<int>)
    requires Create(cfg, store, xAuthKey, input, uuid, now).result.Ok?
    requires Paced(now, EffectiveTtl(cfg, input).value, times)
    ensures var c := Create(cfg, store, xAuthKey, input, uuid, now);
            var tr := Accesses(cfg, c.store, KeyOf(ChooseToken(input, uuid)), times);
            forall i :: 0 <= i < |tr.results| ==> tr.results[i].Ok?
  {
    var c := Create(cfg, store, xAuthKey, input, uuid, now);
    var key := KeyOf(ChooseToken(input, uuid));
    var ttl := EffectiveTtl(cfg, input).value;
    if |times| > 0 {
      var s := c.result.value;
      assert s[TtlField] == Num(ttl) && ttl > 0;
      PacedReadsKeepAlive(cfg, c.store, key, now, ttl, times);
    }
  }

  /** The `get` in session.js fails on a session that the intended renewal
      reads successfully: any session just created with a positive ttl. */
  lemma GetAsWrittenFailsOnLiveSession(cfg: Config, store: SessionStore,
                                       xAuthKey: Option<string>, input: Object,
                                       uuid: string, now: int)
    requires Create(cfg, store, xAuthKey, input, uuid, now).result.Ok?
    requires EffectiveTtl(cfg, input).value > 0
    ensures var c := Create(cfg, store, xAuthKey, input, uuid, now);
            var key := KeyOf(ChooseToken(input, uuid));
            && GetAsWritten(c.store, key, now).result.Err?
            && Get(cfg, c.store, key, now).result.Ok?
  {
  }
}

=== FILE: wrappers.dfy ===
/** Failure-carrying values used throughout the model: an optional value and a
    result that either holds a value or an error. */
module Wrappers {

  datatype Option<+T> = None | Some(value: T)

  datatype Result<+T, +E> = Ok(value: T) | Err(error: E)
}
